=== FILE: README.md ===
# Lift simulation: the car state machine and the dispatcher

This project models the core of a small lift (elevator) simulator written in C.
Each shaft holds one car. A car is a record with these fields:

- its top floor and speed;
- its position in the shaft, counted in units where floor `f` is at `f * FLOOR_HEIGHT`;
- a direction (none, up, down);
- a state (Idle, Moving, Opening, Open, Closing, Wait);
- a timer;
- one stop marker per floor.

Every tick, `update_lift` (lift.c:384-485) raises each car's timer and then acts on its state:

- An Idle car with a marker set becomes Moving. Its direction is set by two truth tests of what `nearest_stop` returns (lift.c:404-412).
- A Moving car at a marked floor clears that marker and starts Opening. Elsewhere it moves one `speed` step in its direction.
- Opening, Open and Closing each pass to the next phase on the tick at which the timer equals that phase's constant.
- Wait does the same at WAIT_TIME, then goes Moving while a marker is left and Idle otherwise.

The timer counts from the car's creation and is never restarted (lift.c:187-190). The header comment of lift.c (lines 26-64) describes a different machine. There, an Idle car departs toward the nearest marked floor, and every state change restarts the timer, so each door phase lasts a fixed number of ticks. "## Findings" lists the inputs on which the two differ.

A call at a floor goes to `call_lift`. It asks every car for a `service_call` estimate and picks one shaft:

- the negative estimate closest to zero, if there is one;
- otherwise the smallest non-negative estimate.

It then sets a stop marker at the call floor in that car.

The model is in these modules, one per file:

| file | module | what it holds |
|---|---|---|
| prelude.dfy | Prelude | `Option`, absolute value, C's truncating division, small arithmetic lemmas |
| constants.dfy | Constants | the constants of `lift.h` |
| lift.dfy | Lifts | the car record, `create_lift`, stop markers, `at_floor`, `at_stop`, `move_lift` |
| scan.dfy | StopScan | `nearest_stop` and `distance_to_last_stop`, with declarative meanings |
| service.dfy | Service | `service_call` |
| fsm.dfy | LiftFsm | `time_tick` and `update_lift`, branch by branch |
| shaft.dfy | Shafts | `call_lift` (scoring and selection) and `update_shafts` |
| intended.dfy | Intended | the state machine, estimate and dispatcher as the doc comments describe them, with the invariant that keeps a car in its shaft |
| findings.dfy | Findings | concrete inputs on which the code as written departs from its doc comments, next to the corrected behaviour |

## Design decisions

- **Constants.** `lift.h` is not part of this model. FLOOR_HEIGHT, OPENING_TIME, OPEN_TIME, CLOSING_TIME and WAIT_TIME are constants with no fixed value.
  - FLOOR_HEIGHT is only known to be positive.
  - CAN_SERVICE is -1, as the doc comment of `service_call` says (lift.c:341-345).
  - Every property is proved for all values of the other constants.
- **Sentinels.** The sentinels NO_STOPS and NOT_AT_FLOOR are `Option.None`. NO_STOPS is a value outside `0..topfloor`, so it is never 0. The C truth test `if (nearest_stop(...))` is therefore `Truthy`: true for NO_STOPS and for every floor except 0.
- **Division.** C's `/` truncates toward zero; `TDiv` reproduces it.
- **The main model follows the code, not the comments.** Modules Lifts, StopScan, Service, LiftFsm and Shafts follow it in five places where the two disagree:
  - `set_state` does not reset the timer (lift.c:187-190, against lift.c:26-27 and 181-182).
  - Leaving Idle tests the returned floor for truthiness (lift.c:406, 410).
  - The direction "flip" in Wait is two `if`s in a row (lift.c:462-468). DirUp is turned into DirDown and straight back.
  - `service_call` overwrites its direction argument (lift.c:368). It also multiplies a signed time by CAN_SERVICE.
  - For a car moving away from the call, `service_call` adds the signed time to service (lift.c:351, 373). When the call is below such a car, that time is negative, so the estimate can be negative too, against the positive time that lift.c:343-345 promises.

  Module Intended holds the corrected versions. Module Findings shows each difference on a concrete car.
- **Estimates of two idle cars.** The doc comment of `service_call` (lift.c:340-345) gives an easy call -1 × the time to service. So two idle cars equally far from a call would get equal estimates. In the code, the estimates of the car below the call and the car above are negations of each other. Whenever the distance is at least one speed step, the car below gets the negative estimate and wins. `Findings.IdleEstimateDependsOnSide` proves this, and this model follows the code.
- **`at_stop`.** The comment on `at_stop` (lift.c:313-315) mentions "the nearest stop", but the code only checks the marker of the current floor. The model follows the code. `StopScan.AtStopIsNearestBothWays` shows that a marked current floor is also the nearest stop both ways.

## Model

| member | source | states |
|---|---|---|
| Prelude.TDiv | lift.c:351 | C's division of the signed distance by the speed: its magnitude is the floor of the magnitudes' quotient and its sign is the sign of the dividend (truncation toward zero) |
| Lifts.CreateLift | lift.c:101-140 | a new car is Idle, DirNone, at position 0 with timer 0, has one marker per floor 0..topfloor and none of them set, and lies in its shaft when its speed is positive |
| Lifts.SetStop | lift.c:295-298 | exactly the marker of `floor` becomes set; every other marker and every other field is unchanged, so no marker is cleared |
| Lifts.ClearStop | lift.c:307-310 | exactly the marker of `floor` becomes clear; every other marker and every other field is unchanged, so no marker is set |
| Lifts.ClearUndoesSet | lift.c:295-310 | clearing a marker that setting has just added gives back the original car, and setting a marker twice is the same as setting it once |
| Lifts.AtFloor | lift.c:600-611 | returns floor `f` exactly when the car's position is floor `f`'s position; returns NOT_AT_FLOOR exactly when no floor is at that position |
| Lifts.AtFloorOfFloor | lift.c:600-611 | `at_floor` inverts the floor-to-position map: a car placed at floor `f`'s position is at floor `f` |
| Lifts.AtStop | lift.c:320-330 | true if and only if some marked floor lies at the car's exact position, and then that floor is `position / FLOOR_HEIGHT` |
| Lifts.AnyStop | lift.c:396-400 | the `lift_called` flag of the Idle branch: some entry of the marker array is set |
| Lifts.AnyStopIsSomeMarked | lift.c:396-400 | the `lift_called` flag is set exactly when the marker of some floor is set |
| Lifts.MoveLift | lift.c:269-276 | the position rises by `speed` for DirUp, falls by `speed` for DirDown, is kept for DirNone; no other field changes |
| StopScan.ScanUp | lift.c:631-650 | the upward walk returns the first marked floor at or above its start, and NO_STOPS only when no floor at or above the start is marked |
| StopScan.ScanDown | lift.c:638-650 | the downward walk returns the first marked floor at or below its start, and NO_STOPS only when no floor at or below the start is marked |
| StopScan.NearestStop | lift.c:624-672 | DirUp / DirDown: the nearest marked floor at or above / at or below the car, including its own floor, or NO_STOPS when there is none; DirNone: the downward answer when there is one, else the upward one, and NO_STOPS only when no marker is set |
| StopScan.NearestStopReadsMarkersAndPosition | lift.c:624-672 | the scan reads only the markers, top floor, speed and position, so updates of state, direction or timer do not change it |
| StopScan.NearestAboveUnique | lift.c:645-650 | at most one floor is the nearest marked floor above the car |
| StopScan.NearestBelowUnique | lift.c:645-650 | at most one floor is the nearest marked floor below the car |
| StopScan.SomeStopIsFoundUpOrDown | lift.c:651-668 | when some marker is set, at least one of the two directional scans finds a floor |
| StopScan.AtStopIsNearestBothWays | lift.c:313-330 | when `at_stop` holds, the car's own floor is the nearest stop both upward and downward, which is what the comment of `at_stop` describes |
| StopScan.RiseToMark | lift.c:694-714 | the upward search from the ground stops at the lowest marked floor below the car, or at the car when there is none |
| StopScan.FallToMark | lift.c:699-714 | the downward search from the top stops at the highest marked floor above the car, or at the car when there is none |
| StopScan.DistanceToLastStop | lift.c:683-721 | 0 for an Idle car or one with DirNone; otherwise the (non-negative) distance to the farthest marked floor strictly beyond the car in its direction, or 0 when there is none |
| Service.ServiceCall | lift.c:347-375 | with `d` the signed distance to the call: an idle car, or one moving toward the call, gets `CAN_SERVICE * tdiv(d, speed)`; any other car gets `2 * (distance_to_last_stop / speed) + tdiv(d, speed)` |
| Service.ServiceCallIgnoresDirection | lift.c:368 | the caller's direction argument never changes the estimate |
| Service.EasyEstimateSign | lift.c:356-371 | an easy call gets a non-positive estimate when it is at or above the car and a non-negative one when it is below |
| LiftFsm.Truthy | lift.c:406-410 | C's truth value of the floor `nearest_stop` returns: NO_STOPS and every floor but 0 are true, floor 0 is false |
| LiftFsm.TimeTick | lift.c:230-233 | the timer rises by one and nothing else changes |
| LiftFsm.UpdateLift | lift.c:384-485 | every tick raises the timer by exactly one, keeps the top floor, speed and number of markers, and never sets a marker |
| LiftFsm.IdleWithoutStopsOnlyTicks | lift.c:394-402 | an idle car with no marker set changes only its timer |
| LiftFsm.NearestAboveIsGround | lift.c:406 | the upward scan returns floor 0, which reads as false, only when the car stands on a marked ground floor |
| LiftFsm.IdleDeparture | lift.c:402-413 | an idle car with a marker set becomes Moving with position and markers untouched; its direction becomes DirDown unless the nearest marker at or below it is floor 0, then DirUp unless it stands on that marked floor 0, else it is kept |
| LiftFsm.MovingStep | lift.c:416-428 | at a marked floor exactly that marker is cleared and the car starts Opening with position and direction kept; elsewhere it moves one speed step in its direction and keeps state and markers; between floors it never opens |
| LiftFsm.DoorPhaseStep | lift.c:430-449 | Opening, Open and Closing advance to the next phase only on the tick at which the timer equals their constant, and change nothing but state and timer |
| LiftFsm.OpeningPastItsTimeStays | lift.c:187-190 | since the timer is never reset, an Opening car whose timer has passed OPENING_TIME is still Opening after the next tick |
| LiftFsm.WaitStep | lift.c:451-478 | Wait changes only at WAIT_TIME: with no marker left it goes Idle with DirNone; otherwise it goes Moving in place, DirUp kept, DirDown kept while a marker remains at or below, DirDown turned to DirUp otherwise |
| LiftFsm.Ticks | lift.c:384-485 | `n` ticks of `update_lift` raise the timer by exactly `n`, whenever every car on the way is one `update_lift` can take |
| LiftFsm.IdleWithoutStopsWaits | lift.c:394-402 | for any number `n` of ticks, an idle car with no marker set only has its timer raised by `n` |
| LiftFsm.CreatedLiftWaitsForACall | lift.c:130-137 | for any `n`, `n` ticks of a new car leave it exactly as created except for its timer, which reads `n`: it waits until a marker is set |
| Intended.IntendedEstimates | shaft.c:82-84 | one estimate per shaft, in shaft order: the documented estimate of that shaft's car for the call |
| Shafts.Estimates | shaft.c:82-84 | one estimate per shaft, in shaft order: the `service_call` estimate of that shaft's car for the call |
| Shafts.ChoiceIsUnique | shaft.c:94-111 | the selection rule names exactly one shaft, or none |
| Shafts.SelectShaft | shaft.c:65-111 | the chosen shaft has the negative estimate in (-32767, 0) closest to zero, the lowest such shaft on ties; failing that the smallest estimate in [0, 32768), lowest shaft on ties; failing that none (-1) |
| Shafts.CallLift | shaft.c:56-112 | the chosen shaft follows the selection rule on every car's estimate; only the chosen car changes, by gaining the marker at the call floor; with no shaft chosen nothing changes |
| Shafts.ChoiceIgnoresDirection | shaft.c:84 | the caller's direction never influences which shaft is chosen |
| Shafts.UpdateShafts | shaft.c:121-130 | every car takes exactly one tick, and the new car in shaft `i` depends only on the old car in shaft `i` |
| Intended.SetState | lift.c:181-190 | the documented `set_state`: the new state starts with its timer at 0, nothing else changes |
| Intended.IntendedUpdateLift | lift.c:26-64 | the documented machine: a state change restarts the timer, otherwise it rises by one; top floor, speed and marker count kept; markers only cleared |
| Intended.CreatedLiftSatisfiesInv | lift.c:130-137 | a new car whose speed divides the floor height satisfies the shaft invariant |
| Intended.SetStopKeepsInv | lift.c:295-298 | setting a marker keeps the shaft invariant |
| Intended.StepTowardFloor | lift.c:269-276 | a speed step from a whole number of steps toward a floor ahead never passes that floor |
| Intended.MovingKeepsInv | lift.c:416-428 | a documented Moving tick keeps the car in its shaft, heading for a marked floor |
| Intended.IdleKeepsInv | lift.c:32-36 | leaving Idle as documented points the car at a marked floor |
| Intended.WaitKeepsInv | lift.c:49-58 | leaving Wait as documented points the car at a marked floor |
| Intended.StepKeepsInv | lift.c:235-237 | every documented tick keeps the car within positions 0 to topfloor * FLOOR_HEIGHT, heading for a marked floor when Moving |
| Intended.Step | lift.c:384-485 | one documented tick of a car in its shaft leaves it in its shaft |
| Intended.Run | lift.c:235-237 | any number of documented ticks keep a car in its shaft |
| Intended.DoorPhaseHolds | lift.c:43-48 | before the remaining ticks of a door phase run out, the car stays in that phase and in place, its timer rising by one per tick |
| Intended.DoorPhaseCompletes | lift.c:43-48 | with the timer reset on entry, each door phase ends after exactly its constant number of ticks: on every earlier tick the car is still in that phase, and after the last it is in the next phase, in place, with that phase's timer at 0 |
| Intended.IntendedServiceCall | lift.c:333-346 | the documented estimate: non-positive when the car is idle or moving toward the call, non-negative otherwise, and never smaller in magnitude than the ticks needed to reach the call |
| Intended.IntendedCallLift | shaft.c:47-55 | the selection rule over the documented estimates; only the chosen car gains a marker; every car keeps the shaft invariant |
| Intended.IntendedUpdateShafts | shaft.c:115-130 | every car takes one documented tick and keeps the shaft invariant |
| Findings.IdleSendsCarBelowGround | lift.c:406-412 | that car sets off DirDown and one tick later stands at -speed, outside its shaft; with a speed below FLOOR_HEIGHT it is then between floors, so `update_lift` can still take it |
| Findings.IdleHeadsForTheCall | lift.c:35-36 | with the documented comparison the same car sets off DirUp and keeps the shaft invariant |
| Findings.WaitKeepsUpPastTop | lift.c:462-468 | that car leaves Wait still heading up and one tick later stands `speed` above the top floor |
| Findings.WaitTurnsTowardTheCall | lift.c:53-55 | with the documented reversal the same car turns DirDown and keeps the shaft invariant |
| Findings.TicksPastOpening | lift.c:430-435 | ticks of an Opening car whose timer has passed OPENING_TIME keep it Opening and only raise the timer |
| Findings.LateStopNeverOpens | lift.c:418-435 | a car that reaches a marked floor after its timer passed OPENING_TIME starts Opening and stays Opening for any number of ticks |
| Findings.StopOpensOnTime | lift.c:26-27 | with the documented timer reset the same car is Opening on each of the next OPENING_TIME ticks and Open right after, so its doors open after exactly OPENING_TIME ticks |
| Findings.CallBelowEstimates | lift.c:350-373 | for a call at floor `f`, an idle car at `f` is estimated 0 and a car one floor above moving up with nothing marked above is estimated -1 as written; the documented estimates are 0 and 1 |
| Findings.DispatchPicksCarMovingAway | shaft.c:82-104 | with those two cars in shafts 0 and 1, the estimates are [0, -1] and call_lift chooses shaft 1, the car moving away |
| Findings.DispatchPicksCarAtTheCall | lift.c:340-345 | with documented estimates the same two cars get [0, 1] and shaft 0, the idle car at the call, is chosen |
| Findings.IdleEstimateDependsOnSide | lift.c:350-357 | two idle cars the same distance below and above a call get estimates that are negations of each other, the one below negative whenever the distance is at least one speed step, while the documented estimates are equal |

## Left out

- main.c (argument parsing, the shaft array, the input loop): program I/O, outside the core.
- Rendering (`print_shafts`, `shaft_to_string`, `get_section`, `lift_to_string`): terminal output only.
- Prompting (`request_stop`, `request_call`, `request_direction`, `prompt_user`) and `string_to_int`: standard input only.
- Memory management (`malloc`, `calloc`, `free`, `free_lift`, `free_shaft`, exit on allocation failure): a car is a value and a shaft is just its car.
- The `printf`/`getchar` at shaft.c:63-64 and the message at shaft.c:109-111: they change no state. A failed call is modelled as "no shaft chosen, nothing changes".
- The illegal-state branch of `update_lift` (lift.c:479-484): the states form a closed datatype, so it cannot be reached.
- The getters and setters other than those named above (`get_speed`, `get_time`, `get_position`, `set_position`, `get_topfloor`, `get_direction`, `set_direction`, `get_state`): they are field reads and record updates.
- 32-bit integer overflow: integers are unbounded. The window bounds -32767 and 32768 of `call_lift` are kept.
- LiftFsm.UpdateLift: requires `Tickable`, which holds exactly when the tick reads no marker outside the array, with two exceptions that come from `nearest_stop` (next line).
  - An Idle car with no marker set may stand anywhere: the loop at lift.c:396-400 stays within the array.
  - A Waiting car whose timer misses WAIT_TIME may stand anywhere: nothing is read (lift.c:453).
  - A Moving car must be in its shaft or between floors. At a floor outside the shaft, `at_stop` reads the marker of that floor (lift.c:325), which lies outside the array.
  - An Idle car with a marker set, and a Waiting car on its WAIT_TIME tick, must be in its shaft, because the branch runs `nearest_stop`.
- StopScan.NearestStop: requires the car in its shaft. From any other position, one of the walks of lift.c:645-650 moves away from its end and reads the marker of a floor outside the array within one floor of travel (undefined behaviour in C). The exceptions are the two positions -1 and `topfloor * FLOOR_HEIGHT + 1`, where that walk starts at its end; these two positions are not modelled.
- StopScan.DistanceToLastStop: requires a car that is not Idle and has a direction to be in its shaft. Only such a car runs the walk of lift.c:708-713. Outside the shaft that walk is defined while it meets a marked floor before leaving the array; those results are not modelled.
- Service.ServiceCall: requires the same of a car that is neither idle nor moving toward the call. Only such a car makes `service_call` call `distance_to_last_stop` (lift.c:371-373).
- Lifts.AtStop: requires the car in its shaft or between floors; at a floor outside the shaft it reads a marker outside the array (lift.c:325).
- Shafts.CallLift: requires the call floor within every car's floors. The C code only writes the chosen car's marker, and writing outside the marker array is undefined behaviour.
- Shafts.CallLift: also returns the chosen shaft (-1 for none), which the C function does not return. It is kept so the contract can name the selection.

## Findings

| source | as written | input that shows it | evidently intended | confidence | as-written member | corrected member |
|---|---|---|---|---|---|---|
| lift.c:406-412 | the Idle branch sets the direction when `nearest_stop` returns a truthy value, so NO_STOPS counts as found and floor 0 as not found | a new car with top floor 1 and any speed, marker at floor 1, one tick, then a second tick | the direction points at the nearest marked floor (lift.c:35-36); the car goes up to floor 1 | not executed | Findings.IdleSendsCarBelowGround | Findings.IdleHeadsForTheCall |
| lift.c:462-468 | the Wait reversal is two `if`s in a row, so DirUp becomes DirDown and then DirUp again | a car with top floor 1 waiting at floor 1, DirUp, only floor 0 marked, timer WAIT_TIME-1, two ticks | DirUp and DirDown swap (lift.c:53-55); the car goes down to floor 0 | not executed | Findings.WaitKeepsUpPastTop | Findings.WaitTurnsTowardTheCall |
| lift.c:187-190 | `set_state` does not reset the timer, so a door phase ends only if the ever-growing timer equals its constant exactly | a Moving car at a marked floor whose timer is at least OPENING_TIME | each state change restarts the timer at 0 (lift.c:26-27, 181-182); the doors open after OPENING_TIME ticks | not executed | Findings.LateStopNeverOpens | Findings.StopOpensOnTime |
| lift.c:350-373 | the moving-away branch (lift.c:373) adds the signed time to service (lift.c:351), so a car moving away from a call below it gets a negative estimate, the preferred kind | a call at floor `f`; shaft 0 holds an idle car at floor `f`; shaft 1 holds a car at floor `f`+1 moving up, with speed FLOOR_HEIGHT and nothing marked above. The estimates are 0 and -1, and shaft 1 is chosen | a negative estimate only for an idle car or one moving toward the call, a positive one otherwise (lift.c:340-345); shaft 0 chosen | not executed | Findings.DispatchPicksCarMovingAway | Findings.DispatchPicksCarAtTheCall |

=== FILE: constants.dfy ===
/**
  The simulation constants the lift code takes from its header. Their values
  are not part of this model, so they are declared without a value: every
  proof holds for any choice, under the stated constraints only.

  NO_STOPS and NOT_AT_FLOOR are not declared here. Both are sentinels outside
  the floor range 0..topfloor, and the model returns `None` where the code
  returns them (see Prelude.Option).
 */
module Constants {

  type Positive = x: int | x > 0 witness 1

  /** Shaft positions per floor: floor `f` sits at position `f * FLOOR_HEIGHT`. */
  const FLOOR_HEIGHT: Positive

  /** Values of the lift timer at which the door phases advance. */
  const OPENING_TIME: int
  const OPEN_TIME: int
  const CLOSING_TIME: int
  const WAIT_TIME: int

  /** Factor that turns a time to service into an "easy to service" estimate. */
  const CAN_SERVICE: int := -1
}

=== FILE: findings.dfy ===
/**
  Concrete runs of the code as written (modules LiftFsm and Service) that
  break what the header comments of lift.c promise, each next to the run of
  the corrected model (module Intended) on the same input.
 */
module Findings {
  import opened Prelude
  import opened Constants
  import opened Lifts
  import opened StopScan
  import opened LiftFsm
  import opened Service
  import opened Shafts
  import opened Intended

  // ---------------------------------------------------------------------
  // Leaving Idle tests the floor number for truthiness
  // ---------------------------------------------------------------------

  /** A new two-floor car at the ground floor, called to floor 1. */
  function CalledUp(speed: int): (r: Lift)
    requires speed > 0
    ensures Valid(r) && r.state == Idle && r.position == 0 && r.stops == [false, true]
  {
    SetStop(CreateLift(1, speed), 1)
  }

  /**
    As written: nothing is marked at or below the car, so the downward scan
    returns NO_STOPS, which is truthy, and the car sets off DirDown. One tick
    later it stands at -speed, below the ground floor.
   */
  lemma IdleSendsCarBelowGround(speed: int)
    requires speed > 0
    ensures UpdateLift(CalledUp(speed)).state == Moving
    ensures UpdateLift(CalledUp(speed)).direction == DirDown
    ensures Tickable(UpdateLift(CalledUp(speed)))
    ensures UpdateLift(UpdateLift(CalledUp(speed))).position == -speed
    ensures !InShaft(UpdateLift(UpdateLift(CalledUp(speed))))
    ensures speed < FLOOR_HEIGHT ==> Tickable(UpdateLift(UpdateLift(CalledUp(speed))))
  {
    var l := CalledUp(speed);
    assert NoStopAtOrBelow(l) by {
      forall g | 0 <= g < |l.stops| && FloorPos(g) <= l.position
        ensures !l.stops[g]
      {
        FloorPosMono(0, g);
      }
    }
    IdleDeparture(l);
    var l1 := UpdateLift(l);
    forall f | Marked(l1, f)
      ensures FloorPos(f) != l1.position
    {
      FloorPosMono(0, f);
    }
    MovingStep(l1);
    if speed < FLOOR_HEIGHT {
      DivModUnique(-speed, FLOOR_HEIGHT, -1, FLOOR_HEIGHT - speed);
    }
  }

  /** Corrected: the same car sets off DirUp toward its call and stays in its shaft. */
  lemma IdleHeadsForTheCall(speed: int)
    requires speed > 0 && FLOOR_HEIGHT % speed == 0
    ensures Inv(CalledUp(speed))
    ensures IntendedUpdateLift(CalledUp(speed)).state == Moving
    ensures IntendedUpdateLift(CalledUp(speed)).direction == DirUp
    ensures Inv(IntendedUpdateLift(CalledUp(speed)))
  {
    var l := CalledUp(speed);
    CreatedLiftSatisfiesInv(1, speed);
    SetStopKeepsInv(CreateLift(1, speed), 1);
    StepKeepsInv(l);
    var m := SetState(TimeTick(l), Moving);
    NearestStopReadsMarkersAndPosition(l, m, DirDown);
    assert NoStopAtOrBelow(l) by {
      forall g | 0 <= g < |l.stops| && FloorPos(g) <= l.position
        ensures !l.stops[g]
      {
        FloorPosMono(0, g);
      }
    }
  }

  // ---------------------------------------------------------------------
  // Wait flips DirUp twice
  // ---------------------------------------------------------------------

  /** A two-floor car waiting at the top floor, heading up, with only floor 0 marked. */
  function WaitingAtTop(speed: int): (r: Lift)
    requires speed > 0
    ensures Valid(r) && r.state == Wait && r.direction == DirUp && r.position == TopPos(r)
  {
    Lift(1, speed, FloorPos(1), DirUp, Wait, WAIT_TIME - 1, [true, false])
  }

  /**
    As written: with nothing above, the two ifs turn DirUp into DirDown and
    back into DirUp, so the car leaves Wait heading up and one tick later
    stands `speed` above the top floor.
   */
  lemma WaitKeepsUpPastTop(speed: int)
    requires speed > 0
    ensures UpdateLift(WaitingAtTop(speed)).state == Moving
    ensures UpdateLift(WaitingAtTop(speed)).direction == DirUp
    ensures Tickable(UpdateLift(WaitingAtTop(speed)))
    ensures UpdateLift(UpdateLift(WaitingAtTop(speed))).position == FloorPos(1) + speed
    ensures !InShaft(UpdateLift(UpdateLift(WaitingAtTop(speed))))
  {
    var l := WaitingAtTop(speed);
    assert AnyStop(l) by { assert l.stops[0]; }
    WaitStep(l);
    var l1 := UpdateLift(l);
    forall f | Marked(l1, f)
      ensures FloorPos(f) != l1.position
    {
      FloorPosMono(f, 1);
    }
    MovingStep(l1);
  }

  /** Corrected: the same car turns DirDown toward floor 0 and stays in its shaft. */
  lemma WaitTurnsTowardTheCall(speed: int)
    requires speed > 0 && FLOOR_HEIGHT % speed == 0
    ensures Inv(WaitingAtTop(speed))
    ensures IntendedUpdateLift(WaitingAtTop(speed)).state == Moving
    ensures IntendedUpdateLift(WaitingAtTop(speed)).direction == DirDown
    ensures Inv(IntendedUpdateLift(WaitingAtTop(speed)))
  {
    var l := WaitingAtTop(speed);
    MultipleOfFactor(speed, FLOOR_HEIGHT, 1);
    assert Inv(l);
    StepKeepsInv(l);
    var t := TimeTick(l);
    var m := SetState(t, Moving);
    NearestStopReadsMarkersAndPosition(l, t, DirNone);
    NearestStopReadsMarkersAndPosition(l, m, DirUp);
    assert l.stops[0];
    SomeStopIsFoundUpOrDown(l);
    assert NoStopAtOrAbove(l) by {
      forall g | 0 <= g < |l.stops| && l.position <= FloorPos(g)
        ensures !l.stops[g]
      {
        FloorPosMono(0, g);
      }
    }
  }

  // ---------------------------------------------------------------------
  // The timer is never reset
  // ---------------------------------------------------------------------

  /** `n` ticks of the code as written, from a car Opening with its timer past OPENING_TIME. */
  function TicksPastOpening(l: Lift, n: nat): (r: Lift)
    requires Shape(l) && l.state == Opening && l.time >= OPENING_TIME
    ensures r.state == Opening && r.time == l.time + n
    ensures Ticks(l, n) == Some(r)
    decreases n
  {
    if n == 0 then l
    else
      OpeningPastItsTimeStays(l);
      TicksPastOpening(UpdateLift(l), n - 1)
  }

  /**
    As written: a car that reaches a marked floor once its timer has passed
    OPENING_TIME (which, with the timer counting from creation, is every
    stop after the first few ticks) starts Opening and is still Opening after
    any number of further ticks.
   */
  lemma LateStopNeverOpens(l: Lift, n: nat)
    requires Valid(l) && l.state == Moving && AtStop(l) && l.time >= OPENING_TIME
    ensures UpdateLift(l).state == Opening
    ensures Shape(UpdateLift(l)) && UpdateLift(l).time >= OPENING_TIME
    ensures TicksPastOpening(UpdateLift(l), n).state == Opening
  {
    MovingStep(l);
  }

  /** Corrected: on reaching a marked floor the timer restarts, so the door phase ends on time. */
  lemma StopOpensOnTime(l: Lift)
    requires Inv(l) && l.state == Moving && AtStop(l) && OPENING_TIME > 0
    ensures IntendedUpdateLift(l).state == Opening && IntendedUpdateLift(l).time == 0
    ensures Inv(IntendedUpdateLift(l))
    ensures forall j: nat :: j < OPENING_TIME ==> Run(IntendedUpdateLift(l), j).state == Opening
    ensures Run(IntendedUpdateLift(l), OPENING_TIME).state == Open
  {
    assert AtStop(TimeTick(l)) == AtStop(l);
    StepKeepsInv(l);
    DoorPhaseCompletes(IntendedUpdateLift(l));
  }

  // ---------------------------------------------------------------------
  // The estimate keeps the sign of the distance
  // ---------------------------------------------------------------------

  lemma FloorOverFloor()
    ensures FLOOR_HEIGHT / FLOOR_HEIGHT == 1
  {
    DivModUnique(FLOOR_HEIGHT, FLOOR_HEIGHT, 1, 0);
  }

  /** Car `a` stands idle at floor `f`. */
  predicate IdleAtCall(a: Lift, f: int)
  {
    Valid(a) && a.state == Idle && a.position == FloorPos(f)
  }

  /** Car `b` is one floor above floor `f`, one floor per tick, moving up with nothing marked above it. */
  predicate MovingAwayAbove(b: Lift, f: int)
  {
    && Valid(b) && b.state == Moving && b.direction == DirUp
    && b.speed == FLOOR_HEIGHT && b.position == FloorPos(f) + FLOOR_HEIGHT && NoStopAbove(b)
  }

  /** The estimates of both cars for a call at `f`, as written and as documented. */
  lemma CallBelowEstimates(a: Lift, b: Lift, f: int)
    requires IdleAtCall(a, f) && MovingAwayAbove(b, f)
    ensures ServiceCall(a, f, DirNone) == 0 && ServiceCall(b, f, DirNone) == -1
    ensures IntendedServiceCall(a, f, DirNone) == 0 && IntendedServiceCall(b, f, DirNone) == 1
  {
    FloorOverFloor();
    assert CallDistance(b, f) + FLOOR_HEIGHT == 0;
    assert !EasyToService(b, f);
    var r := DistanceToLastStop(b);
    if r > 0 {
      BoundaryIsFloor(b.position + r);
      assert false;
    }
  }

  /** Of the estimates [0, -1] the negative one is chosen; of [0, 1] the smaller. */
  lemma ChoicesOfTwo()
    ensures IsChoice([0, -1], 1)
    ensures IsChoice([0, 1], 0)
  {
    assert HasNeg([0, -1]) by { assert InNegWindow([0, -1][1]); }
    assert HasPos([0, 1]) by { assert InPosWindow([0, 1][0]); }
  }

  /**
    As written: for a call at floor `f`, an idle car already standing there
    is estimated 0 and a car one floor above moving away from it -1. The
    negative estimate wins, so call_lift marks the call in the car moving
    away.
   */
  lemma DispatchPicksCarMovingAway(a: Lift, b: Lift, f: int)
    requires IdleAtCall(a, f) && MovingAwayAbove(b, f)
    ensures Estimates([a, b], f, DirNone) == [0, -1]
    ensures IsChoice(Estimates([a, b], f, DirNone), 1)
  {
    var e := Estimates([a, b], f, DirNone);
    CallBelowEstimates(a, b, f);
    assert e[0] == ServiceCall(a, f, DirNone) && e[1] == ServiceCall(b, f, DirNone);
    assert e == [0, -1];
    ChoicesOfTwo();
  }

  /** Corrected: the car moving away is estimated 1, and the idle car at the call is chosen. */
  lemma DispatchPicksCarAtTheCall(a: Lift, b: Lift, f: int)
    requires IdleAtCall(a, f) && MovingAwayAbove(b, f)
    ensures IntendedEstimates([a, b], f) == [0, 1]
    ensures IsChoice(IntendedEstimates([a, b], f), 0)
  {
    var e := IntendedEstimates([a, b], f);
    CallBelowEstimates(a, b, f);
    assert e[0] == IntendedServiceCall(a, f, DirNone) && e[1] == IntendedServiceCall(b, f, DirNone);
    assert e == [0, 1];
    ChoicesOfTwo();
  }

  /**
    As written: two idle cars the same number of floors from a call, one
    below it and one above, get estimates of opposite sign; whenever the
    distance is at least one speed step, the car below gets the negative one.
   */
  lemma IdleEstimateDependsOnSide(below: Lift, above: Lift, callFloor: int, k: int)
    requires Valid(below) && Valid(above) && below.state == Idle && above.state == Idle
    requires below.speed == above.speed && k > 0
    requires below.position == FloorPos(callFloor) - k * FLOOR_HEIGHT
    requires above.position == FloorPos(callFloor) + k * FLOOR_HEIGHT
    ensures ServiceCall(below, callFloor, DirNone) == -ServiceCall(above, callFloor, DirNone)
    ensures ServiceCall(below, callFloor, DirNone) < 0 || k * FLOOR_HEIGHT < below.speed
    ensures IntendedServiceCall(below, callFloor, DirNone) == IntendedServiceCall(above, callFloor, DirNone)
  {
    MulAtLeast(k, FLOOR_HEIGHT);
  }
}

=== FILE: fsm.dfy ===
/**
  update_lift of lift.c: one tick of a car's finite state machine, modelled
  as the code does it (lift.c:384-485), not as its header comment describes
  it. Three places where the two differ shape everything below:
  - set_state does not reset the timer, so `time` counts every tick since
    creation and a door phase advances only on the one tick at which it
    equals its constant;
  - leaving Idle tests the floor number returned by nearest_stop for
    truthiness: floor 0 reads as "no stop" and NO_STOPS reads as "found";
  - in Wait, the direction "flip" is two ifs in a row, so DirUp is turned
    into DirDown and straight back into DirUp.
  The states are a closed datatype, so the illegal-state branch cannot occur.
 */
module LiftFsm {
  import opened Prelude
  import opened Constants
  import opened Lifts
  import opened StopScan

  /**
    What update_lift needs of a car so that every marker it reads lies in the
    array: its shape; the car in its shaft when the branch runs the walks of
    nearest_stop (Idle with a marker set, Wait at WAIT_TIME); and a Moving
    car in its shaft or between floors, where at_stop reads no marker.
   */
  predicate Tickable(l: Lift)
  {
    && Shape(l)
    && (l.state == Idle && AnyStop(l) ==> InShaft(l))
    && (l.state == Moving ==> AtStopDefined(l))
    && (l.state == Wait && l.time + 1 == WAIT_TIME ==> InShaft(l))
  }

  /**
    C's truth value of a floor number returned by nearest_stop. NO_STOPS lies
    outside 0..topfloor and so is not 0: it counts as true, floor 0 as false.
   */
  predicate Truthy(r: Option<int>)
  {
    r.None? || r.value != 0
  }

  /** time_tick: the timer advances by one and nothing else changes. */
  function TimeTick(l: Lift): (r: Lift)
    ensures r.time == l.time + 1 && r.(time := l.time) == l
  {
    l.(time := l.time + 1)
  }

  /** One tick of the state machine of car `l`. */
  function UpdateLift(l: Lift): (r: Lift)
    requires Tickable(l)
    ensures r.time == l.time + 1
    ensures r.topfloor == l.topfloor && r.speed == l.speed && |r.stops| == |l.stops|
    ensures forall g :: Marked(r, g) ==> Marked(l, g)
  {
    var t := TimeTick(l);
    match t.state
    case Idle =>
      if AnyStop(t) then
        var m := t.(state := Moving);
        var m1 := if Truthy(NearestStop(m, DirUp)) then m.(direction := DirUp) else m;
        if Truthy(NearestStop(m1, DirDown)) then m1.(direction := DirDown) else m1
      else t
    case Moving =>
      if AtStop(t) then ClearStop(t, t.position / FLOOR_HEIGHT).(state := Opening)
      else MoveLift(t)
    case Opening =>
      if t.time == OPENING_TIME then t.(state := Open) else t
    case Open =>
      if t.time == OPEN_TIME then t.(state := Closing) else t
    case Closing =>
      if t.time == CLOSING_TIME then t.(state := Wait) else t
    case Wait =>
      if t.time == WAIT_TIME then
        if NearestStop(t, DirNone).Some? then
          var m := t.(state := Moving);
          if NearestStop(m, m.direction).None? then
            var m1 := if m.direction == DirUp then m.(direction := DirDown) else m;
            if m1.direction == DirDown then m1.(direction := DirUp) else m1
          else m
        else t.(state := Idle, direction := DirNone)
      else t
  }

  // ---------------------------------------------------------------------
  // Idle
  // ---------------------------------------------------------------------

  /** An idle car with no marker set only counts the tick. */
  lemma IdleWithoutStopsOnlyTicks(l: Lift)
    requires Tickable(l) && l.state == Idle && !AnyStop(l)
    ensures UpdateLift(l) == l.(time := l.time + 1)
  {
  }

  /** The upward walk from the car stops at floor 0 only when the car stands on a marked ground floor. */
  lemma NearestAboveIsGround(l: Lift)
    requires Valid(l)
    ensures IsNearestAbove(l, 0) <==> l.position == 0 && l.stops[0]
  {
    assert FloorPos(0) == 0;
  }

  /**
    An idle car with a marker set starts Moving without moving or touching a
    marker. Its direction is DirDown unless the nearest marked floor at or
    below it is floor 0; then it is DirUp, unless the car stands on that
    marked ground floor, when the direction is left as it was.
   */
  lemma IdleDeparture(l: Lift)
    requires Valid(l) && l.state == Idle && AnyStop(l)
    ensures UpdateLift(l).state == Moving
    ensures UpdateLift(l).position == l.position && UpdateLift(l).stops == l.stops
    ensures !IsNearestBelow(l, 0) ==> UpdateLift(l).direction == DirDown
    ensures IsNearestBelow(l, 0) && !(l.position == 0 && l.stops[0]) ==> UpdateLift(l).direction == DirUp
    ensures IsNearestBelow(l, 0) && l.position == 0 && l.stops[0] ==> UpdateLift(l).direction == l.direction
  {
    NearestAboveIsGround(l);
    var t := TimeTick(l).(state := Moving);
    assert Valid(t);
    var up, down := NearestStop(t, DirUp), NearestStop(l, DirDown);
    assert NearestStop(t, DirUp) == NearestStop(l, DirUp);
    if IsNearestBelow(l, 0) {
      if down.Some? { NearestBelowUnique(l, 0, down.value); }
    } else {
      assert Truthy(down);
    }
    if up.Some? && up.value == 0 {
      assert IsNearestAbove(l, 0);
    }
    if l.position == 0 && l.stops[0] {
      if up.Some? { NearestAboveUnique(l, 0, up.value); }
    }
  }

  // ---------------------------------------------------------------------
  // Moving
  // ---------------------------------------------------------------------

  /**
    A moving car at a marked floor clears exactly that floor's marker and
    starts Opening, keeping its position and direction; anywhere else it moves
    one speed step in its direction of travel (none for DirNone) and keeps its
    state and markers. Between floors it never opens.
   */
  lemma MovingStep(l: Lift)
    requires Tickable(l) && l.state == Moving
    ensures AtStop(l) ==>
      && UpdateLift(l).state == Opening
      && UpdateLift(l).position == l.position
      && UpdateLift(l).direction == l.direction
      && UpdateLift(l).stops == l.stops[l.position / FLOOR_HEIGHT := false]
    ensures !AtStop(l) ==>
      && UpdateLift(l).state == Moving
      && UpdateLift(l).stops == l.stops
      && UpdateLift(l).direction == l.direction
      && UpdateLift(l).position == l.position
           + (if l.direction == DirUp then l.speed else if l.direction == DirDown then -l.speed else 0)
    ensures l.position % FLOOR_HEIGHT != 0 ==> UpdateLift(l).state == Moving
  {
    assert AtStop(TimeTick(l)) == AtStop(l);
  }

  // ---------------------------------------------------------------------
  // Door phases
  // ---------------------------------------------------------------------

  /**
    Opening, Open and Closing advance to the next phase only on the tick at
    which the (never reset) timer equals the phase's constant; nothing but
    the state and the timer ever changes.
   */
  lemma DoorPhaseStep(l: Lift)
    requires Shape(l) && (l.state == Opening || l.state == Open || l.state == Closing)
    ensures UpdateLift(l).(state := l.state) == l.(time := l.time + 1)
    ensures l.state == Opening ==>
      UpdateLift(l).state == (if l.time + 1 == OPENING_TIME then Open else Opening)
    ensures l.state == Open ==>
      UpdateLift(l).state == (if l.time + 1 == OPEN_TIME then Closing else Open)
    ensures l.state == Closing ==>
      UpdateLift(l).state == (if l.time + 1 == CLOSING_TIME then Wait else Closing)
  {
  }

  /** Once the timer has passed OPENING_TIME, Opening is never left again: the next tick is Opening with a later time. */
  lemma OpeningPastItsTimeStays(l: Lift)
    requires Shape(l) && l.state == Opening && l.time >= OPENING_TIME
    ensures UpdateLift(l).state == Opening && UpdateLift(l).time > OPENING_TIME
  {
  }

  // ---------------------------------------------------------------------
  // Wait
  // ---------------------------------------------------------------------

  /**
    Wait changes only on the tick at which the timer equals WAIT_TIME. Then a
    car with no marker left goes Idle with DirNone; otherwise it goes Moving
    without moving, and its direction is: DirUp kept, DirNone kept, DirDown
    kept while a marker remains at or below the car, and DirUp otherwise.
   */
  lemma WaitStep(l: Lift)
    requires Tickable(l) && l.state == Wait
    ensures l.time + 1 != WAIT_TIME ==> UpdateLift(l) == l.(time := l.time + 1)
    ensures l.time + 1 == WAIT_TIME && !AnyStop(l) ==>
      UpdateLift(l) == l.(time := l.time + 1, state := Idle, direction := DirNone)
    ensures l.time + 1 == WAIT_TIME && AnyStop(l) ==>
      && UpdateLift(l).state == Moving
      && UpdateLift(l).position == l.position
      && UpdateLift(l).stops == l.stops
      && UpdateLift(l).direction == (if l.direction == DirDown && NoStopAtOrBelow(l) then DirUp else l.direction)
  {
    if l.time + 1 == WAIT_TIME {
      var t := TimeTick(l);
      assert NearestStop(t, DirNone) == NearestStop(l, DirNone);
      assert NearestStop(t, l.direction) == NearestStop(l, l.direction);
    }
  }

  /**
    `n` ticks of the state machine as written, or None if the car reaches a
    state update_lift cannot take before the ticks run out.
   */
  function Ticks(l: Lift, n: nat): (r: Option<Lift>)
    ensures r.Some? ==> r.value.time == l.time + n
    ensures r.Some? && n > 0 ==> Tickable(l)
    decreases n
  {
    if n == 0 then Some(l)
    else if !Tickable(l) then None
    else Ticks(UpdateLift(l), n - 1)
  }

  /** An idle car with no marker set only counts ticks, for any number of ticks. */
  lemma {:induction false} IdleWithoutStopsWaits(l: Lift, n: nat)
    requires Tickable(l) && l.state == Idle && !AnyStop(l)
    ensures Ticks(l, n) == Some(l.(time := l.time + n))
    decreases n
  {
    if n > 0 {
      IdleWithoutStopsOnlyTicks(l);
      IdleWithoutStopsWaits(UpdateLift(l), n - 1);
    }
  }

  /** A freshly created car does nothing but count ticks until a marker is set. */
  lemma CreatedLiftWaitsForACall(topfloor: int, speed: int, n: nat)
    requires topfloor >= 0 && speed > 0
    ensures Ticks(CreateLift(topfloor, speed), n) == Some(CreateLift(topfloor, speed).(time := n))
  {
    IdleWithoutStopsWaits(CreateLift(topfloor, speed), n);
  }
}

=== FILE: intended.dfy ===
/**
  The state machine and estimate as the header comments of lift.c describe
  them, with the four defects of the code corrected:
  - set_state resets the timer to 0 (lift.c:181-182, lift.c:26-27);
  - leaving Idle compares the result of nearest_stop with NO_STOPS instead of
    testing it for truthiness (lift.c:35-36);
  - Wait flips DirUp to DirDown and DirDown to DirUp when nothing remains in
    the current direction (lift.c:53-55);
  - service_call measures the time to service as a non-negative distance
    over speed (lift.c:340-345).
  With these, a car whose speed divides the floor height never leaves its
  shaft (Inv below is preserved by every tick and every call), and every
  door phase ends after exactly its constant number of ticks.
 */
module Intended {
  import opened Prelude
  import opened Constants
  import opened Lifts
  import opened StopScan
  import opened LiftFsm
  import opened Service
  import opened Shafts

  /** set_state as documented: the new state starts with its timer at 0. */
  function SetState(l: Lift, s: State): (r: Lift)
    ensures r.state == s && r.time == 0 && r.(state := l.state, time := l.time) == l
  {
    l.(state := s, time := 0)
  }

  /** The direction Wait turns to when nothing remains in the current one. */
  function Reverse(d: Direction): Direction
  {
    match d
    case DirUp => DirDown
    case DirDown => DirUp
    case DirNone => DirNone
  }

  /** One tick of the corrected state machine. */
  function IntendedUpdateLift(l: Lift): (r: Lift)
    requires Tickable(l)
    ensures r.state != l.state ==> r.time == 0
    ensures r.state == l.state ==> r.time == l.time + 1
    ensures r.topfloor == l.topfloor && r.speed == l.speed && |r.stops| == |l.stops|
    ensures forall g :: Marked(r, g) ==> Marked(l, g)
  {
    var t := TimeTick(l);
    match t.state
    case Idle =>
      if AnyStop(t) then
        var m := SetState(t, Moving);
        var m1 := if NearestStop(m, DirUp).Some? then m.(direction := DirUp) else m;
        if NearestStop(m1, DirDown).Some? then m1.(direction := DirDown) else m1
      else t
    case Moving =>
      if AtStop(t) then SetState(ClearStop(t, t.position / FLOOR_HEIGHT), Opening)
      else MoveLift(t)
    case Opening =>
      if t.time == OPENING_TIME then SetState(t, Open) else t
    case Open =>
      if t.time == OPEN_TIME then SetState(t, Closing) else t
    case Closing =>
      if t.time == CLOSING_TIME then SetState(t, Wait) else t
    case Wait =>
      if t.time == WAIT_TIME then
        if NearestStop(t, DirNone).Some? then
          var m := SetState(t, Moving);
          if NearestStop(m, m.direction).None? then m.(direction := Reverse(m.direction)) else m
        else SetState(t, Idle).(direction := DirNone)
      else t
  }

  // ---------------------------------------------------------------------
  // The car stays in its shaft
  // ---------------------------------------------------------------------

  /** A moving car always has a marked floor ahead of it (or on its own floor). */
  ghost predicate Heading(l: Lift)
  {
    && (l.state == Moving && l.direction == DirUp ==>
          exists f :: Marked(l, f) && l.position <= FloorPos(f))
    && (l.state == Moving && l.direction == DirDown ==>
          exists f :: Marked(l, f) && FloorPos(f) <= l.position)
  }

  /**
    The car is in its shaft on a whole number of speed steps, its speed
    divides the floor height, and when moving it heads for a marked floor.
   */
  ghost predicate Inv(l: Lift)
  {
    Valid(l) && FLOOR_HEIGHT % l.speed == 0 && l.position % l.speed == 0 && Heading(l)
  }

  /** A freshly created car whose speed divides the floor height satisfies the invariant. */
  lemma CreatedLiftSatisfiesInv(topfloor: int, speed: int)
    requires topfloor >= 0 && speed > 0 && FLOOR_HEIGHT % speed == 0
    ensures Inv(CreateLift(topfloor, speed))
  {
  }

  /** Setting a stop marker keeps the invariant: markers ahead of a moving car stay set. */
  lemma SetStopKeepsInv(l: Lift, floor: int)
    requires Inv(l) && 0 <= floor < |l.stops|
    ensures Inv(SetStop(l, floor))
  {
    var r := SetStop(l, floor);
    if r.state == Moving && r.direction == DirUp {
      var f :| Marked(l, f) && l.position <= FloorPos(f);
      assert Marked(r, f);
    }
    if r.state == Moving && r.direction == DirDown {
      var f :| Marked(l, f) && FloorPos(f) <= l.position;
      assert Marked(r, f);
    }
  }

  /** A step of `speed` from a multiple of `speed` toward a floor ahead never passes that floor. */
  lemma StepTowardFloor(l: Lift, f: int)
    requires Inv(l) && 0 <= f <= l.topfloor && FloorPos(f) != l.position
    ensures l.position < FloorPos(f) ==> l.position + l.speed <= FloorPos(f) <= TopPos(l)
    ensures FloorPos(f) < l.position ==> 0 <= FloorPos(f) <= l.position - l.speed
    ensures (l.position + l.speed) % l.speed == 0 && (l.position - l.speed) % l.speed == 0
  {
    MultipleOfFactor(l.speed, FLOOR_HEIGHT, f);
    assert FloorPos(f) % l.speed == 0;
    if l.position < FloorPos(f) {
      MultiplesApart(l.speed, l.position, FloorPos(f));
    } else {
      MultiplesApart(l.speed, FloorPos(f), l.position);
    }
    FloorPosMono(f, l.topfloor);
    FloorPosMono(0, f);
    var q := l.position / l.speed;
    DivModUnique(l.position + l.speed, l.speed, q + 1, 0);
    DivModUnique(l.position - l.speed, l.speed, q - 1, 0);
  }

  lemma MovingKeepsInv(l: Lift)
    requires Inv(l) && l.state == Moving
    ensures Inv(IntendedUpdateLift(l))
  {
    var t := TimeTick(l);
    var r := IntendedUpdateLift(l);
    assert AtStop(t) == AtStop(l);
    if !AtStop(l) {
      if l.direction == DirUp {
        var f :| Marked(l, f) && l.position <= FloorPos(f);
        StepTowardFloor(l, f);
        assert Marked(r, f);
      } else if l.direction == DirDown {
        var f :| Marked(l, f) && FloorPos(f) <= l.position;
        StepTowardFloor(l, f);
        assert Marked(r, f);
      }
    }
  }

  lemma IdleKeepsInv(l: Lift)
    requires Inv(l) && l.state == Idle
    ensures Inv(IntendedUpdateLift(l))
  {
    var r := IntendedUpdateLift(l);
    if AnyStop(l) {
      SomeStopIsFoundUpOrDown(l);
      var m := SetState(TimeTick(l), Moving);
      NearestStopReadsMarkersAndPosition(l, m, DirUp);
      NearestStopReadsMarkersAndPosition(l, m, DirDown);
      if r.direction == DirUp {
        var f := NearestStop(l, DirUp).value;
        assert Marked(r, f);
      } else if r.direction == DirDown {
        var f := NearestStop(l, DirDown).value;
        assert Marked(r, f);
      }
    }
  }

  lemma WaitKeepsInv(l: Lift)
    requires Inv(l) && l.state == Wait
    ensures Inv(IntendedUpdateLift(l))
  {
    var r := IntendedUpdateLift(l);
    var t := TimeTick(l);
    if t.time == WAIT_TIME && NearestStop(t, DirNone).Some? {
      var m := SetState(t, Moving);
      NearestStopReadsMarkersAndPosition(l, t, DirNone);
      NearestStopReadsMarkersAndPosition(l, m, DirUp);
      NearestStopReadsMarkersAndPosition(l, m, DirDown);
      SomeStopIsFoundUpOrDown(l);
      if r.direction == DirUp {
        var f := NearestStop(l, DirUp).value;
        assert Marked(r, f);
      } else if r.direction == DirDown {
        var f := NearestStop(l, DirDown).value;
        assert Marked(r, f);
      }
    }
  }

  /** Every corrected tick keeps the car inside its shaft, heading for a marked floor. */
  lemma StepKeepsInv(l: Lift)
    requires Inv(l)
    ensures Tickable(l) && Inv(IntendedUpdateLift(l))
  {
    match l.state
    case Idle => IdleKeepsInv(l);
    case Moving => MovingKeepsInv(l);
    case Wait => WaitKeepsInv(l);
    case _ =>
  }

  /** One corrected tick of a car that satisfies the invariant; the invariant holds after it. */
  function Step(l: Lift): (r: Lift)
    requires Inv(l)
    ensures Inv(r) && r == IntendedUpdateLift(l)
  {
    StepKeepsInv(l);
    IntendedUpdateLift(l)
  }

  /** `n` ticks of the corrected state machine. */
  function Run(l: Lift, n: nat): (r: Lift)
    requires Inv(l)
    ensures Inv(r)
    decreases n
  {
    if n == 0 then l else Run(Step(l), n - 1)
  }

  // ---------------------------------------------------------------------
  // Door phases end
  // ---------------------------------------------------------------------

  predicate DoorPhase(s: State)
  {
    s == Opening || s == Open || s == Closing
  }

  /** The timer value at which a door phase ends. */
  function PhaseTime(s: State): int
    requires DoorPhase(s)
  {
    match s
    case Opening => OPENING_TIME
    case Open => OPEN_TIME
    case Closing => CLOSING_TIME
  }

  /** The state that follows a door phase. */
  function NextPhase(s: State): State
    requires DoorPhase(s)
  {
    match s
    case Opening => Open
    case Open => Closing
    case Closing => Wait
  }

  /** Before the remaining ticks of a door phase run out, the car is still in that phase. */
  lemma {:induction false} DoorPhaseHolds(l: Lift, j: nat)
    requires Inv(l) && DoorPhase(l.state) && 0 <= l.time && j < PhaseTime(l.state) - l.time
    ensures Run(l, j).state == l.state && Run(l, j).time == l.time + j
    ensures Run(l, j).position == l.position
    decreases j
  {
    if j > 0 {
      StepKeepsInv(l);
      assert Step(l) == l.(time := l.time + 1);
      DoorPhaseHolds(Step(l), j - 1);
    }
  }

  /**
    A door phase entered with its timer below the phase's constant ends after
    exactly the remaining number of ticks, with the next state's timer at 0:
    on every earlier tick the car is still in that phase.
   */
  lemma {:induction false} DoorPhaseCompletes(l: Lift)
    requires Inv(l) && DoorPhase(l.state) && 0 <= l.time < PhaseTime(l.state)
    ensures forall j: nat :: j < PhaseTime(l.state) - l.time ==> Run(l, j).state == l.state
    ensures Run(l, PhaseTime(l.state) - l.time).state == NextPhase(l.state)
    ensures Run(l, PhaseTime(l.state) - l.time).time == 0
    ensures Run(l, PhaseTime(l.state) - l.time).position == l.position
    decreases PhaseTime(l.state) - l.time
  {
    forall j: nat | j < PhaseTime(l.state) - l.time
      ensures Run(l, j).state == l.state
    {
      DoorPhaseHolds(l, j);
    }
    StepKeepsInv(l);
    var next := IntendedUpdateLift(l);
    if l.time + 1 < PhaseTime(l.state) {
      assert next == l.(time := l.time + 1);
      DoorPhaseCompletes(next);
    } else {
      assert next == l.(state := NextPhase(l.state), time := 0);
      assert Run(next, 0) == next;
    }
  }

  // ---------------------------------------------------------------------
  // Estimate and dispatch
  // ---------------------------------------------------------------------

  /** service_call with the time to service measured as |distance| / speed. */
  function IntendedServiceCall(l: Lift, callFloor: int, direction: Direction): (r: int)
    requires Valid(l)
    ensures EasyToService(l, callFloor) ==> r <= 0
    ensures !EasyToService(l, callFloor) ==> r >= 0
    ensures Abs(r) >= Abs(CallDistance(l, callFloor)) / l.speed
  {
    var timeToService := Abs(CallDistance(l, callFloor)) / l.speed;
    var timeToReturn := DistanceToLastStop(l) / l.speed;
    DivNonNegative(Abs(CallDistance(l, callFloor)), l.speed);
    DivNonNegative(DistanceToLastStop(l), l.speed);
    if EasyToService(l, callFloor) then -timeToService
    else timeToReturn * 2 + timeToService
  }

  function IntendedEstimates(lifts: seq<Lift>, tofloor: int): (r: seq<int>)
    requires forall i :: 0 <= i < |lifts| ==> Valid(lifts[i])
    ensures |r| == |lifts|
    ensures forall i :: 0 <= i < |lifts| ==> r[i] == IntendedServiceCall(lifts[i], tofloor, DirNone)
  {
    seq(|lifts|, i requires 0 <= i < |lifts| => IntendedServiceCall(lifts[i], tofloor, DirNone))
  }

  /** Every car of the sequence satisfies the invariant, so in particular lies in its shaft. */
  ghost predicate AllInv(lifts: seq<Lift>)
    ensures AllInv(lifts) ==> forall i :: 0 <= i < |lifts| ==> Valid(lifts[i])
  {
    forall i :: 0 <= i < |lifts| ==> Inv(lifts[i])
  }

  /**
    call_lift over the corrected estimates: same selection windows, same
    single marker; every car keeps the invariant.
   */
  method IntendedCallLift(lifts: seq<Lift>, tofloor: int) returns (r: seq<Lift>, chosen: int)
    requires AllInv(lifts)
    requires forall i :: 0 <= i < |lifts| ==> 0 <= tofloor <= lifts[i].topfloor
    ensures IsChoice(IntendedEstimates(lifts, tofloor), chosen)
    ensures |r| == |lifts|
    ensures forall i :: 0 <= i < |lifts| && i != chosen ==> r[i] == lifts[i]
    ensures chosen != -1 ==> 0 <= chosen < |lifts| && r[chosen] == SetStop(lifts[chosen], tofloor)
    ensures AllInv(r)
  {
    chosen := SelectShaft(IntendedEstimates(lifts, tofloor));
    if chosen != -1 {
      SetStopKeepsInv(lifts[chosen], tofloor);
      r := lifts[chosen := SetStop(lifts[chosen], tofloor)];
    } else {
      r := lifts;
    }
  }

  /** update_shafts over the corrected tick: every car takes one tick and keeps the invariant. */
  method IntendedUpdateShafts(lifts: seq<Lift>) returns (r: seq<Lift>)
    requires AllInv(lifts)
    ensures |r| == |lifts|
    ensures forall i :: 0 <= i < |lifts| ==> r[i] == Step(lifts[i]) && Inv(r[i])
  {
    r := lifts;
    var i := 0;
    while i < |lifts|
      invariant 0 <= i <= |lifts| && |r| == |lifts|
      invariant forall j :: 0 <= j < i ==> r[j] == Step(lifts[j])
      invariant forall j :: i <= j < |lifts| ==> r[j] == lifts[j]
    {
      r := r[i := Step(r[i])];
      i := i + 1;
    }
  }
}

=== FILE: lift.dfy ===
/**
  The lift car of lift.c as an immutable record: its fixed shape (top floor,
  speed), its motion (position, direction), its finite-state-machine fields
  (state, time) and its stop markers, one per floor. The C getters and
  setters are field reads and record updates; the mutators that carry
  meaning (creation, stop markers, floor detection, movement) are below.
 */
module Lifts {
  import opened Prelude
  import opened Constants

  datatype Direction = DirNone | DirUp | DirDown

  datatype State = Idle | Moving | Opening | Open | Closing | Wait

  datatype Lift = Lift(
    topfloor: int,
    speed: int,
    position: int,
    direction: Direction,
    state: State,
    time: int,
    stops: seq<bool>)

  /** Shaft position of floor `f`. */
  function FloorPos(f: int): int
  {
    f * FLOOR_HEIGHT
  }

  /** Position of the top floor of the shaft of `l`. */
  function TopPos(l: Lift): int
  {
    FloorPos(l.topfloor)
  }

  /** One stop marker per floor 0..top: the array the walks over the markers read. */
  predicate Markers(stops: seq<bool>, top: int)
  {
    top >= 0 && |stops| == top + 1
  }

  /** The fixed shape of a car: one stop marker per floor 0..topfloor, a positive speed. */
  predicate Shape(l: Lift)
  {
    Markers(l.stops, l.topfloor) && l.speed > 0
  }

  /** The car is inside its shaft, between the ground floor and the top floor. */
  predicate InShaft(l: Lift)
  {
    0 <= l.position <= TopPos(l)
  }

  predicate Valid(l: Lift)
  {
    Shape(l) && InShaft(l)
  }

  /** Floor `f` exists and carries a stop marker. */
  predicate Marked(l: Lift, f: int)
  {
    0 <= f < |l.stops| && l.stops[f]
  }

  /** Some entry of the marker array is set: the flag of the lift_called loop. */
  predicate AnyStop(l: Lift)
  {
    true in l.stops
  }

  /** The flag is set exactly when some floor carries a stop marker. */
  lemma AnyStopIsSomeMarked(l: Lift)
    ensures AnyStop(l) <==> exists f :: Marked(l, f)
  {
    if AnyStop(l) {
      var f :| 0 <= f < |l.stops| && l.stops[f];
      assert Marked(l, f);
    }
  }

  // ---------------------------------------------------------------------
  // Floor arithmetic
  // ---------------------------------------------------------------------

  /** Division by the floor height recovers the floor number of a floor position. */
  lemma FloorPosExact(f: int)
    ensures FloorPos(f) % FLOOR_HEIGHT == 0 && FloorPos(f) / FLOOR_HEIGHT == f
  {
    DivModUnique(FloorPos(f), FLOOR_HEIGHT, f, 0);
  }

  /** Position `s` is the position of floor `g` only if `s` is a floor boundary and `g` is its floor number. */
  lemma OnlyFloorAt(s: int)
    ensures forall g {:trigger FloorPos(g)} :: FloorPos(g) == s ==> s % FLOOR_HEIGHT == 0 && s / FLOOR_HEIGHT == g
  {
    forall g | FloorPos(g) == s
      ensures s % FLOOR_HEIGHT == 0 && s / FLOOR_HEIGHT == g
    {
      FloorPosExact(g);
    }
  }

  /** A floor boundary is the position of its floor number. */
  lemma BoundaryIsFloor(s: int)
    requires s % FLOOR_HEIGHT == 0
    ensures FloorPos(s / FLOOR_HEIGHT) == s
  {
  }

  /** Floor positions are ordered as the floors are. */
  lemma FloorPosMono(a: int, b: int)
    ensures a < b <==> FloorPos(a) < FloorPos(b)
  {
    if a < b {
      MulStrictMono(FLOOR_HEIGHT, a, b);
    } else if b < a {
      MulStrictMono(FLOOR_HEIGHT, b, a);
    }
  }

  /** Every position inside the shaft lies on or above floor 0 and below the floor above the top floor. */
  lemma FloorIndexBound(s: int, top: int)
    requires 0 <= s <= FloorPos(top)
    ensures 0 <= s / FLOOR_HEIGHT <= top
  {
    var q := s / FLOOR_HEIGHT;
    assert s == FLOOR_HEIGHT * q + s % FLOOR_HEIGHT;
    if q > top {
      FloorPosMono(top, q);
      assert false;
    }
    if q < 0 {
      FloorPosMono(q, 0);
      assert false;
    }
  }

  // ---------------------------------------------------------------------
  // create_lift, set_stop, clear_stop
  // ---------------------------------------------------------------------

  /** A new car: idle, without direction, timer at 0, on the ground floor, no stop marked. */
  function CreateLift(topfloor: int, speed: int): (r: Lift)
    requires topfloor >= 0
    ensures r.topfloor == topfloor && r.speed == speed
    ensures r.state == Idle && r.direction == DirNone && r.time == 0 && r.position == 0
    ensures |r.stops| == topfloor + 1 && !AnyStop(r)
    ensures speed > 0 ==> Valid(r)
  {
    FloorPosMono(0, topfloor);
    Lift(topfloor, speed, 0, DirNone, Idle, 0, seq(topfloor + 1, _ => false))
  }

  /** Marks floor `floor` as a stop; no other marker and no other field changes. */
  function SetStop(l: Lift, floor: int): (r: Lift)
    requires 0 <= floor < |l.stops|
    ensures Marked(r, floor) && AnyStop(r)
    ensures |r.stops| == |l.stops|
    ensures forall g :: 0 <= g < |l.stops| && g != floor ==> r.stops[g] == l.stops[g]
    ensures forall g :: Marked(l, g) ==> Marked(r, g)
    ensures r.(stops := l.stops) == l
  {
    l.(stops := l.stops[floor := true])
  }

  /** Removes the marker of floor `floor`; no other marker and no other field changes. */
  function ClearStop(l: Lift, floor: int): (r: Lift)
    requires 0 <= floor < |l.stops|
    ensures !Marked(r, floor)
    ensures |r.stops| == |l.stops|
    ensures forall g :: 0 <= g < |l.stops| && g != floor ==> r.stops[g] == l.stops[g]
    ensures forall g :: Marked(r, g) ==> Marked(l, g)
    ensures r.(stops := l.stops) == l
  {
    l.(stops := l.stops[floor := false])
  }

  /** Clearing a marker that setting has just added restores the car; setting twice is setting once. */
  lemma ClearUndoesSet(l: Lift, floor: int)
    requires 0 <= floor < |l.stops| && !Marked(l, floor)
    ensures ClearStop(SetStop(l, floor), floor) == l
    ensures SetStop(SetStop(l, floor), floor) == SetStop(l, floor)
  {
    assert ClearStop(SetStop(l, floor), floor).stops == l.stops;
  }

  // ---------------------------------------------------------------------
  // at_floor, at_stop, move_lift
  // ---------------------------------------------------------------------

  /**
    The floor the car is exactly at, or None (NOT_AT_FLOOR) between floors.
    C's truncating `%` and `/` agree with Dafny's whenever the remainder is 0,
    so this is exact for every position.
   */
  function AtFloor(l: Lift): (r: Option<int>)
    ensures r.Some? ==> FloorPos(r.value) == l.position
    ensures r.None? ==> forall f :: FloorPos(f) != l.position
  {
    OnlyFloorAt(l.position);
    if l.position % FLOOR_HEIGHT == 0 then Some(l.position / FLOOR_HEIGHT) else None
  }

  /** at_floor inverts the floor-to-position map: a car placed at floor `f` is at floor `f`. */
  lemma AtFloorOfFloor(l: Lift, f: int)
    ensures AtFloor(l.(position := FloorPos(f))) == Some(f)
  {
    FloorPosExact(f);
  }

  /**
    at_stop reads a marker inside the array: the car is in its shaft, or it
    stands between floors, where at_floor answers NOT_AT_FLOOR and no marker
    is read.
   */
  predicate AtStopDefined(l: Lift)
  {
    Shape(l) && (InShaft(l) || l.position % FLOOR_HEIGHT != 0)
  }

  /** The car is exactly at a floor whose stop marker is set. */
  function AtStop(l: Lift): (r: bool)
    requires AtStopDefined(l)
    ensures r <==> exists f :: Marked(l, f) && FloorPos(f) == l.position
    ensures r ==> l.position % FLOOR_HEIGHT == 0 && Marked(l, l.position / FLOOR_HEIGHT)
  {
    OnlyFloorAt(l.position);
    match AtFloor(l)
    case None => false
    case Some(f) =>
      FloorIndexBound(l.position, l.topfloor);
      l.stops[f]
  }

  /** Moves the car one speed step in its direction of travel; nothing else changes. */
  function MoveLift(l: Lift): (r: Lift)
    ensures l.direction == DirUp ==> r.position == l.position + l.speed
    ensures l.direction == DirDown ==> r.position == l.position - l.speed
    ensures l.direction == DirNone ==> r.position == l.position
    ensures r.(position := l.position) == l
  {
    if l.direction == DirUp then l.(position := l.position + l.speed)
    else if l.direction == DirDown then l.(position := l.position - l.speed)
    else l
  }
}

=== FILE: prelude.dfy ===
/**
  Small shared vocabulary: an Option type for the C sentinels (NO_STOPS,
  NOT_AT_FLOOR), C's truncating integer division, and the arithmetic facts
  about multiplication by a symbolic constant that the solver does not find
  on its own.
 */
module Prelude {

  /** A result that may be absent; `None` plays the role of a C sentinel value. */
  datatype Option<+T> = None | Some(value: T)

  function Abs(x: int): (r: nat)
    ensures r == x || r == -x
  {
    if x < 0 then -x else x
  }

  /** -1, 0 or 1 according to the sign of `x`. */
  function Sign(x: int): (r: int)
    ensures x > 0 ==> r == 1
    ensures x == 0 ==> r == 0
    ensures x < 0 ==> r == -1
  {
    if x > 0 then 1 else if x < 0 then -1 else 0
  }

  /**
    C's `a / b` for a positive divisor: the quotient is truncated toward zero,
    so its magnitude is |a| divided by b and its sign is that of `a`.
    (Dafny's own `/` rounds toward negative infinity for negative `a`.)
   */
  function TDiv(a: int, b: int): (r: int)
    requires b > 0
    ensures Abs(r) == Abs(a) / b
    ensures r == Sign(a) * (Abs(a) / b)
  {
    if a >= 0 then a / b else -((-a) / b)
  }

  lemma {:induction false} MulAtLeast(d: int, k: int)
    requires d > 0 && k >= 1
    ensures d * k >= d
  {
    if k > 1 {
      MulAtLeast(d, k - 1);
      assert d * k == d * (k - 1) + d;
    }
  }

  /** Multiplication by a positive factor is strictly monotone. */
  lemma MulStrictMono(d: int, a: int, b: int)
    requires d > 0 && a < b
    ensures d * a < d * b
  {
    MulAtLeast(d, b - a);
    assert d * b - d * a == d * (b - a);
  }

  /** The quotient and remainder of a division are unique. */
  lemma DivModUnique(a: int, d: int, q: int, r: int)
    requires d > 0 && 0 <= r < d && a == d * q + r
    ensures a / d == q && a % d == r
  {
    var q0, r0 := a / d, a % d;
    assert a == d * q0 + r0;
    var k := q - q0;
    assert d * k == r0 - r by { assert d * q - d * q0 == d * k; }
    if k >= 1 {
      MulAtLeast(d, k);
    } else if k <= -1 {
      MulAtLeast(d, -k);
    }
  }

  /** A non-negative number divided by a positive one gives a non-negative quotient. */
  lemma DivNonNegative(a: int, d: int)
    requires a >= 0 && d > 0
    ensures a / d >= 0
  {
    var q := a / d;
    assert a == d * q + a % d;
    if q <= -1 {
      MulAtLeast(d, -q);
    }
  }

  /** Two distinct multiples of `d` are at least `d` apart. */
  lemma MultiplesApart(d: int, a: int, b: int)
    requires d > 0 && a % d == 0 && b % d == 0 && a < b
    ensures a + d <= b
  {
    var qa, qb := a / d, b / d;
    assert a == d * qa && b == d * qb;
    if qb <= qa {
      if qb < qa {
        MulStrictMono(d, qb, qa);
      }
      assert false;
    }
    MulAtLeast(d, qb - qa);
    assert d * qb - d * qa == d * (qb - qa);
  }

  /** A multiple of a multiple of `d` is a multiple of `d`. */
  lemma MultipleOfFactor(d: int, m: int, f: int)
    requires d > 0 && m % d == 0
    ensures (f * m) % d == 0
  {
    var k := m / d;
    assert m == d * k;
    assert f * m == d * (f * k);
    DivModUnique(f * m, d, f * k, 0);
  }
}

=== FILE: scan.dfy ===
/**
  The stop-marker scans of lift.c. Both walk the shaft one position at a
  time, exactly as the C loops do, and look at the marker of every position
  that is a floor boundary:
  - nearest_stop walks from the car toward one end of the shaft and reports
    the first marked floor (the nearest one in that direction, the car's own
    floor included), or NO_STOPS (None);
  - distance_to_last_stop walks from the far end of the shaft back toward
    the car and stops at the first marked floor, which is the farthest stop
    strictly beyond the car in its direction of travel.
  Each walk is related here to a declarative description of its answer.
 */
module StopScan {
  import opened Prelude
  import opened Constants
  import opened Lifts

  /** Every floor 0..top lies between position 0 and the position of floor `top`. */
  lemma FloorsInsideShaft(stops: seq<bool>, top: int)
    requires |stops| == top + 1
    ensures forall g :: 0 <= g < |stops| ==> 0 <= FloorPos(g) <= FloorPos(top)
  {
    forall g | 0 <= g < |stops|
      ensures 0 <= FloorPos(g) <= FloorPos(top)
    {
      FloorPosMono(g, top);
      FloorPosMono(0, g);
    }
  }

  // ---------------------------------------------------------------------
  // Declarative answers
  // ---------------------------------------------------------------------

  /** `f` is the marked floor nearest the car among those at or above it. */
  predicate IsNearestAbove(l: Lift, f: int)
  {
    Marked(l, f) && l.position <= FloorPos(f)
    && forall g :: 0 <= g < |l.stops| && l.position <= FloorPos(g) < FloorPos(f) ==> !l.stops[g]
  }

  /** `f` is the marked floor nearest the car among those at or below it. */
  predicate IsNearestBelow(l: Lift, f: int)
  {
    Marked(l, f) && FloorPos(f) <= l.position
    && forall g :: 0 <= g < |l.stops| && FloorPos(f) < FloorPos(g) <= l.position ==> !l.stops[g]
  }

  /** No marked floor at or above the car. */
  predicate NoStopAtOrAbove(l: Lift)
  {
    forall g :: 0 <= g < |l.stops| && l.position <= FloorPos(g) ==> !l.stops[g]
  }

  /** No marked floor at or below the car. */
  predicate NoStopAtOrBelow(l: Lift)
  {
    forall g :: 0 <= g < |l.stops| && FloorPos(g) <= l.position ==> !l.stops[g]
  }

  /** No marked floor strictly above the car. */
  predicate NoStopAbove(l: Lift)
  {
    forall g :: 0 <= g < |l.stops| && l.position < FloorPos(g) ==> !l.stops[g]
  }

  /** No marked floor strictly below the car. */
  predicate NoStopBelow(l: Lift)
  {
    forall g :: 0 <= g < |l.stops| && FloorPos(g) < l.position ==> !l.stops[g]
  }

  /** Position `q` is the highest marked floor, and it lies strictly above the car. */
  predicate HighestAbove(l: Lift, q: int)
  {
    l.position < q && q % FLOOR_HEIGHT == 0 && Marked(l, q / FLOOR_HEIGHT)
    && forall g :: 0 <= g < |l.stops| && q < FloorPos(g) ==> !l.stops[g]
  }

  /** Position `q` is the lowest marked floor, and it lies strictly below the car. */
  predicate LowestBelow(l: Lift, q: int)
  {
    q < l.position && q % FLOOR_HEIGHT == 0 && Marked(l, q / FLOOR_HEIGHT)
    && forall g :: 0 <= g < |l.stops| && FloorPos(g) < q ==> !l.stops[g]
  }

  // ---------------------------------------------------------------------
  // nearest_stop
  // ---------------------------------------------------------------------

  /** The upward walk of nearest_stop, from position `s` to one past the top floor. */
  function ScanUp(stops: seq<bool>, top: int, s: int): (r: Option<int>)
    requires Markers(stops, top) && 0 <= s <= FloorPos(top) + 1
    ensures r.Some? ==> 0 <= r.value < |stops| && stops[r.value] && s <= FloorPos(r.value)
    ensures r.Some? ==> forall g :: 0 <= g < |stops| && s <= FloorPos(g) < FloorPos(r.value) ==> !stops[g]
    ensures r.None? ==> forall g :: 0 <= g < |stops| && s <= FloorPos(g) ==> !stops[g]
    decreases FloorPos(top) + 1 - s
  {
    if s == FloorPos(top) + 1 then
      FloorsInsideShaft(stops, top);
      None
    else
      OnlyFloorAt(s);
      if s % FLOOR_HEIGHT != 0 then ScanUp(stops, top, s + 1)
      else
        FloorIndexBound(s, top);
        if stops[s / FLOOR_HEIGHT] then Some(s / FLOOR_HEIGHT) else ScanUp(stops, top, s + 1)
  }

  /** The downward walk of nearest_stop, from position `s` to one below the ground floor. */
  function ScanDown(stops: seq<bool>, top: int, s: int): (r: Option<int>)
    requires Markers(stops, top) && -1 <= s <= FloorPos(top)
    ensures r.Some? ==> 0 <= r.value < |stops| && stops[r.value] && FloorPos(r.value) <= s
    ensures r.Some? ==> forall g :: 0 <= g < |stops| && FloorPos(r.value) < FloorPos(g) <= s ==> !stops[g]
    ensures r.None? ==> forall g :: 0 <= g < |stops| && FloorPos(g) <= s ==> !stops[g]
    decreases s + 1
  {
    if s == -1 then
      FloorsInsideShaft(stops, top);
      None
    else
      OnlyFloorAt(s);
      if s % FLOOR_HEIGHT != 0 then ScanDown(stops, top, s - 1)
      else
        FloorIndexBound(s, top);
        if stops[s / FLOOR_HEIGHT] then Some(s / FLOOR_HEIGHT) else ScanDown(stops, top, s - 1)
  }

  /**
    nearest_stop: the nearest marked floor in direction `constrain` (the car's
    own floor included), or None (NO_STOPS). With DirNone both directions are
    searched and a stop at or below the car is preferred.
   */
  function NearestStop(l: Lift, constrain: Direction): (r: Option<int>)
    requires Valid(l)
    ensures constrain == DirUp ==>
      match r
      case Some(f) => IsNearestAbove(l, f)
      case None => NoStopAtOrAbove(l)
    ensures constrain == DirDown ==>
      match r
      case Some(f) => IsNearestBelow(l, f)
      case None => NoStopAtOrBelow(l)
    ensures constrain == DirNone ==>
      match r
      case Some(f) => IsNearestBelow(l, f) || (NoStopAtOrBelow(l) && IsNearestAbove(l, f))
      case None => !AnyStop(l)
    decreases if constrain == DirNone then 1 else 0
  {
    match constrain
    case DirUp => ScanUp(l.stops, l.topfloor, l.position)
    case DirDown => ScanDown(l.stops, l.topfloor, l.position)
    case DirNone =>
      var above := NearestStop(l, DirUp);
      var below := NearestStop(l, DirDown);
      if above.None? && below.None? then
        None
      else if below.None? then above
      else below
  }

  /** The walks read only the markers, the top floor and the position of a car. */
  lemma NearestStopReadsMarkersAndPosition(l: Lift, l': Lift, constrain: Direction)
    requires Valid(l) && l'.stops == l.stops && l'.topfloor == l.topfloor && l'.speed == l.speed && l'.position == l.position
    ensures Valid(l') && NearestStop(l', constrain) == NearestStop(l, constrain)
  {
  }

  /** The nearest marked floor in a direction is unique. */
  lemma NearestAboveUnique(l: Lift, f1: int, f2: int)
    requires IsNearestAbove(l, f1) && IsNearestAbove(l, f2)
    ensures f1 == f2
  {
    FloorPosMono(f1, f2);
    FloorPosMono(f2, f1);
  }

  lemma NearestBelowUnique(l: Lift, f1: int, f2: int)
    requires IsNearestBelow(l, f1) && IsNearestBelow(l, f2)
    ensures f1 == f2
  {
    FloorPosMono(f1, f2);
    FloorPosMono(f2, f1);
  }

  /** Some marker is set exactly when a walk in one of the two directions finds one. */
  lemma SomeStopIsFoundUpOrDown(l: Lift)
    requires Valid(l)
    ensures AnyStop(l) <==> NearestStop(l, DirUp).Some? || NearestStop(l, DirDown).Some?
  {
    AnyStopIsSomeMarked(l);
    if AnyStop(l) && NearestStop(l, DirUp).None? {
      var g :| Marked(l, g);
      assert FloorPos(g) < l.position;
    }
  }

  /** The car is at a marked floor exactly when both directional walks stop at its own floor. */
  lemma AtStopIsNearestBothWays(l: Lift)
    requires Valid(l)
    ensures AtStop(l) <==>
      (NearestStop(l, DirUp).Some? && FloorPos(NearestStop(l, DirUp).value) == l.position)
    ensures AtStop(l) <==>
      (NearestStop(l, DirDown).Some? && FloorPos(NearestStop(l, DirDown).value) == l.position)
  {
    if AtStop(l) {
      var f :| Marked(l, f) && FloorPos(f) == l.position;
      assert IsNearestAbove(l, f);
      assert IsNearestBelow(l, f);
      if NearestStop(l, DirUp).Some? {
        NearestAboveUnique(l, f, NearestStop(l, DirUp).value);
      }
      if NearestStop(l, DirDown).Some? {
        NearestBelowUnique(l, f, NearestStop(l, DirDown).value);
      }
    }
  }

  // ---------------------------------------------------------------------
  // distance_to_last_stop
  // ---------------------------------------------------------------------

  /** The upward walk of distance_to_last_stop: from `s` toward `e`, halting at the first marked floor. */
  function RiseToMark(stops: seq<bool>, top: int, s: int, e: int): (r: int)
    requires Markers(stops, top) && 0 <= s <= e <= FloorPos(top)
    ensures s <= r <= e
    ensures r < e ==> r % FLOOR_HEIGHT == 0 && 0 <= r / FLOOR_HEIGHT < |stops| && stops[r / FLOOR_HEIGHT]
    ensures forall g :: 0 <= g < |stops| && s <= FloorPos(g) < r ==> !stops[g]
    decreases e - s
  {
    if s == e then s
    else
      OnlyFloorAt(s);
      if s % FLOOR_HEIGHT != 0 then RiseToMark(stops, top, s + 1, e)
      else
        FloorIndexBound(s, top);
        if stops[s / FLOOR_HEIGHT] then s else RiseToMark(stops, top, s + 1, e)
  }

  /** The downward walk of distance_to_last_stop: from `s` toward `e`, halting at the first marked floor. */
  function FallToMark(stops: seq<bool>, top: int, s: int, e: int): (r: int)
    requires Markers(stops, top) && 0 <= e <= s <= FloorPos(top)
    ensures e <= r <= s
    ensures r > e ==> r % FLOOR_HEIGHT == 0 && 0 <= r / FLOOR_HEIGHT < |stops| && stops[r / FLOOR_HEIGHT]
    ensures forall g :: 0 <= g < |stops| && r < FloorPos(g) <= s ==> !stops[g]
    decreases s - e
  {
    if s == e then s
    else
      OnlyFloorAt(s);
      if s % FLOOR_HEIGHT != 0 then FallToMark(stops, top, s - 1, e)
      else
        FloorIndexBound(s, top);
        if stops[s / FLOOR_HEIGHT] then s else FallToMark(stops, top, s - 1, e)
  }

  /**
    distance_to_last_stop: 0 for an idle car or one without direction,
    which reads no marker and so may stand anywhere;
    otherwise the distance from the car to the farthest marked floor strictly
    beyond it in its direction of travel, or 0 when there is none.
   */
  function DistanceToLastStop(l: Lift): (r: nat)
    requires Shape(l) && (l.state == Idle || l.direction == DirNone || InShaft(l))
    ensures l.state == Idle || l.direction == DirNone ==> r == 0
    ensures l.state != Idle && l.direction == DirDown ==>
      (r == 0 && NoStopBelow(l)) || (r > 0 && LowestBelow(l, l.position - r))
    ensures l.state != Idle && l.direction == DirUp ==>
      (r == 0 && NoStopAbove(l)) || (r > 0 && HighestAbove(l, l.position + r))
  {
    FloorsInsideShaft(l.stops, l.topfloor);
    if l.state == Idle then 0
    else if l.direction == DirDown then Abs(l.position - RiseToMark(l.stops, l.topfloor, 0, l.position))
    else if l.direction == DirUp then Abs(l.position - FallToMark(l.stops, l.topfloor, TopPos(l), l.position))
    else 0
  }
}

=== FILE: service.dfy ===
/**
  service_call of lift.c: the dispatcher's estimate of how quickly a car can
  answer a call. A non-positive value means "easy" (the car is idle, or is
  already travelling toward the call); otherwise the car first finishes its
  run. The estimate is computed exactly as the code does it: the distance to
  the call is SIGNED, C's `/` truncates toward zero, and the caller's
  direction argument is overwritten by the car's own direction before use.
 */
module Service {
  import opened Prelude
  import opened Constants
  import opened Lifts
  import opened StopScan

  /** Signed distance from the car to the call floor (positive: the call is above). */
  function CallDistance(l: Lift, callFloor: int): int
  {
    FloorPos(callFloor) - l.position
  }

  /** The car is idle, or its direction of travel takes it toward the call floor. */
  predicate EasyToService(l: Lift, callFloor: int)
  {
    var d := CallDistance(l, callFloor);
    l.state == Idle || (d > 0 && l.direction == DirUp) || (d < 0 && l.direction == DirDown)
  }

  /**
    service_call reads markers only through distance_to_last_stop, which it
    calls for a car that is neither idle nor moving toward the call, and
    which walks the markers only for a car with a direction: such a car must
    be in its shaft.
   */
  predicate Estimable(l: Lift, callFloor: int)
  {
    Shape(l) && (EasyToService(l, callFloor) || l.direction == DirNone || InShaft(l))
  }

  /**
    The estimate for calling car `l` to `callFloor`. Whole ticks to the call are
    |distance| / speed; an easy call reports them with the sign flipped by the
    direction of the call, any other call adds twice the ticks to the car's
    last stop.
   */
  function ServiceCall(l: Lift, callFloor: int, direction: Direction): (r: int)
    requires Estimable(l, callFloor)
    ensures EasyToService(l, callFloor) ==>
      r == -Sign(CallDistance(l, callFloor)) * (Abs(CallDistance(l, callFloor)) / l.speed)
    ensures !EasyToService(l, callFloor) ==>
      r == 2 * (DistanceToLastStop(l) / l.speed)
           + Sign(CallDistance(l, callFloor)) * (Abs(CallDistance(l, callFloor)) / l.speed)
  {
    var distance := FloorPos(callFloor) - l.position;
    var timeToService := TDiv(distance, l.speed);
    if l.state == Idle then
      timeToService * CAN_SERVICE
    else
      var direction := l.direction;
      if (distance > 0 && direction == DirUp) || (distance < 0 && direction == DirDown) then
        timeToService * CAN_SERVICE
      else
        TDiv(DistanceToLastStop(l), l.speed) * 2 + timeToService
  }

  /** The direction the caller wants to travel in never changes the estimate. */
  lemma ServiceCallIgnoresDirection(l: Lift, callFloor: int, d1: Direction, d2: Direction)
    requires Estimable(l, callFloor)
    ensures ServiceCall(l, callFloor, d1) == ServiceCall(l, callFloor, d2)
  {
  }

  /**
    An easy call is reported with the sign opposite to the direction of the
    call: non-positive when the call is at or above the car, non-negative
    when it is below, because the signed time is what is multiplied by
    CAN_SERVICE. Only a call above the car or on its floor lands among the
    negative, preferred estimates.
   */
  lemma EasyEstimateSign(l: Lift, callFloor: int, direction: Direction)
    requires Estimable(l, callFloor)
    ensures EasyToService(l, callFloor) && CallDistance(l, callFloor) >= 0 ==>
      ServiceCall(l, callFloor, direction) <= 0
    ensures EasyToService(l, callFloor) && CallDistance(l, callFloor) < 0 ==>
      ServiceCall(l, callFloor, direction) >= 0
  {
  }
}

=== FILE: shaft.dfy ===
/**
  The dispatcher of shaft.c. A shaft is modelled as just its car, so the bank
  of shafts is a sequence of lifts indexed by shaft number.

  call_lift asks every car for its service estimate and keeps two running
  bests: the negative estimate closest to zero, inside the window
  (-32767, 0), and the smallest non-negative estimate, inside [0, 32768).
  Both comparisons are strict, so the lowest shaft number wins a tie. A
  negative best beats any non-negative one; the winner gets a stop marker at
  the call floor. When neither window holds an estimate nothing changes (the
  code only prints a message).
 */
module Shafts {
  import opened Lifts
  import opened LiftFsm
  import opened Service

  /** Initial "insane" bests of call_lift; estimates must beat them strictly. */
  const BEST_NEG_START: int := -32767
  const BEST_POS_START: int := 32768

  predicate InNegWindow(t: int)
  {
    BEST_NEG_START < t < 0
  }

  predicate InPosWindow(t: int)
  {
    0 <= t < BEST_POS_START
  }

  predicate HasNeg(est: seq<int>)
  {
    exists j :: 0 <= j < |est| && InNegWindow(est[j])
  }

  predicate HasPos(est: seq<int>)
  {
    exists j :: 0 <= j < |est| && InPosWindow(est[j])
  }

  /** Shaft `k` has the negative-window estimate closest to zero, and no lower shaft ties with it. */
  predicate BestNegative(est: seq<int>, k: int)
  {
    && 0 <= k < |est| && InNegWindow(est[k])
    && (forall j :: 0 <= j < |est| && InNegWindow(est[j]) ==> est[j] <= est[k])
    && (forall j :: 0 <= j < k && InNegWindow(est[j]) ==> est[j] < est[k])
  }

  /** Shaft `k` has the smallest non-negative-window estimate, and no lower shaft ties with it. */
  predicate BestPositive(est: seq<int>, k: int)
  {
    && 0 <= k < |est| && InPosWindow(est[k])
    && (forall j :: 0 <= j < |est| && InPosWindow(est[j]) ==> est[k] <= est[j])
    && (forall j :: 0 <= j < k && InPosWindow(est[j]) ==> est[k] < est[j])
  }

  /** The shaft call_lift must pick for estimates `est`; -1 when there is none. */
  predicate IsChoice(est: seq<int>, k: int)
  {
    if HasNeg(est) then BestNegative(est, k)
    else if HasPos(est) then BestPositive(est, k)
    else k == -1
  }

  /** Exactly one shaft, or -1, fits the selection rule. */
  lemma ChoiceIsUnique(est: seq<int>, k1: int, k2: int)
    requires IsChoice(est, k1) && IsChoice(est, k2)
    ensures k1 == k2
  {
  }

  /** The selection loop of call_lift over the estimates of shafts 0..|est|-1, in index order. */
  method SelectShaft(est: seq<int>) returns (shaft: int)
    ensures IsChoice(est, shaft)
    ensures shaft == -1 || 0 <= shaft < |est|
  {
    var bestposTime := BEST_POS_START;
    var bestnegTime := BEST_NEG_START;
    var bestposShaft := -1;
    var bestnegShaft := -1;
    var i := 0;
    while i < |est|
      invariant 0 <= i <= |est|
      invariant bestnegShaft == -1 ==> bestnegTime == BEST_NEG_START && !HasNeg(est[..i])
      invariant bestnegShaft != -1 ==> BestNegative(est[..i], bestnegShaft) && bestnegTime == est[bestnegShaft]
      invariant bestposShaft == -1 ==> bestposTime == BEST_POS_START && !HasPos(est[..i])
      invariant bestposShaft != -1 ==> BestPositive(est[..i], bestposShaft) && bestposTime == est[bestposShaft]
    {
      var serviceTime := est[i];
      if serviceTime < 0 && serviceTime > bestnegTime {
        bestnegTime := serviceTime;
        bestnegShaft := i;
      } else if serviceTime >= 0 && serviceTime < bestposTime {
        bestposTime := serviceTime;
        bestposShaft := i;
      }
      i := i + 1;
    }
    assert est[..i] == est;
    if bestnegShaft != -1 {
      shaft := bestnegShaft;
    } else if bestposShaft != -1 {
      shaft := bestposShaft;
    } else {
      shaft := -1;
    }
  }

  /** The service estimate of every car for a call at `tofloor`, by shaft number. */
  function Estimates(lifts: seq<Lift>, tofloor: int, direction: Direction): (r: seq<int>)
    requires forall i :: 0 <= i < |lifts| ==> Estimable(lifts[i], tofloor)
    ensures |r| == |lifts|
    ensures forall i :: 0 <= i < |lifts| ==> r[i] == ServiceCall(lifts[i], tofloor, direction)
  {
    seq(|lifts|, i requires 0 <= i < |lifts| => ServiceCall(lifts[i], tofloor, direction))
  }

  /**
    call_lift: sets a stop marker at `tofloor` in the car of the selected
    shaft `chosen` (-1 when no estimate fell in either window); every other
    car, and every other field and marker of the chosen car, is unchanged.
   */
  method CallLift(lifts: seq<Lift>, tofloor: int, direction: Direction) returns (r: seq<Lift>, chosen: int)
    requires forall i :: 0 <= i < |lifts| ==> Estimable(lifts[i], tofloor) && 0 <= tofloor <= lifts[i].topfloor
    ensures IsChoice(Estimates(lifts, tofloor, direction), chosen)
    ensures |r| == |lifts|
    ensures forall i :: 0 <= i < |lifts| && i != chosen ==> r[i] == lifts[i]
    ensures chosen == -1 ==> r == lifts
    ensures chosen != -1 ==> 0 <= chosen < |lifts| && r[chosen] == SetStop(lifts[chosen], tofloor)
  {
    chosen := SelectShaft(Estimates(lifts, tofloor, direction));
    if chosen != -1 {
      r := lifts[chosen := SetStop(lifts[chosen], tofloor)];
    } else {
      r := lifts;
    }
  }

  /** The caller's direction never influences which shaft is chosen. */
  lemma ChoiceIgnoresDirection(lifts: seq<Lift>, tofloor: int, d1: Direction, d2: Direction, k1: int, k2: int)
    requires forall i :: 0 <= i < |lifts| ==> Estimable(lifts[i], tofloor)
    requires IsChoice(Estimates(lifts, tofloor, d1), k1)
    requires IsChoice(Estimates(lifts, tofloor, d2), k2)
    ensures k1 == k2
  {
    var e1, e2 := Estimates(lifts, tofloor, d1), Estimates(lifts, tofloor, d2);
    forall i | 0 <= i < |lifts|
      ensures e1[i] == e2[i]
    {
      ServiceCallIgnoresDirection(lifts[i], tofloor, d1, d2);
    }
    assert e1 == e2;
    ChoiceIsUnique(e1, k1, k2);
  }

  /**
    update_shafts: every car takes exactly one tick, in shaft order, and the
    new car in shaft `i` depends only on the old car in shaft `i`.
   */
  method UpdateShafts(lifts: seq<Lift>) returns (r: seq<Lift>)
    requires forall i :: 0 <= i < |lifts| ==> Tickable(lifts[i])
    ensures |r| == |lifts|
    ensures forall i :: 0 <= i < |lifts| ==> r[i] == UpdateLift(lifts[i])
  {
    r := lifts;
    var i := 0;
    while i < |lifts|
      invariant 0 <= i <= |lifts| && |r| == |lifts|
      invariant forall j :: 0 <= j < i ==> r[j] == UpdateLift(lifts[j])
      invariant forall j :: i <= j < |lifts| ==> r[j] == lifts[j]
    {
      r := r[i := UpdateLift(r[i])];
      i := i + 1;
    }
  }
}
